=== FILE: README.md ===
# Image-to-3D proxy: a Dafny model of its decision logic

The proxy takes an image and sends it on to an image-to-3D conversion service. The image comes as a remote URL or as an inline `data:image/...;base64,...` URI. An inline image is saved to a file under `static/uploads`, uploaded to an image host, and replaced by the host's public URL. The proxy then submits a generation task for that URL and polls the job's status until it ends. It answers with the URLs of the mesh and the preview. `proxy.py` and `123/proxy.py` are the same file, so one model covers both. Rows below cite either copy.

The model keeps the handler's decisions and replaces each external effect with an input value:

- every HTTP request is answered by a `Reply` value, either `Failed(message)` or `Answered(text, body)`;
- the status service is a function from the attempt number to its `Reply`;
- `uuid.uuid4().hex` is a `stem` string, and the base64 codec is a pair of functions;
- a file read after a write returns the bytes written.

Each external action is recorded as an `Effect`, in order: a file write, an image upload, a task submission, and the status polling (its query and sleep counts). So the lemmas can say what was done as well as what was answered.

Modules, one file each:

- `Values` (values.dfy): JSON values as Python holds them, the exceptions that can end a request, and `dict.get`, `d[key]`, truthiness and `str()`.
- `Text` (text.dfy): `str.split`, `str.split(sep, 1)` and `str.startswith`, with `Find`, the first-occurrence search that the two splits are defined by.
- `Io` (io.dfy): replies, effects and base64 decoding outcomes.
- `Materializer` (materializer.dfy): `save_base64_image` and `upload_to_imgbb`.
- `TaskClient` (taskclient.dfy): `create_task`.
- `Poller` (poller.dfy): `poll_task`. The specification function `Poll` is recursive. The method `PollTask` has the source's loop and is proved equal to `Poll`.
- `Pipeline` (pipeline.dfy): the `/tripo` handler.

Points of the code's behaviour that the model keeps:

- The code sleeps after every non-terminal reply, including the last one, so a timeout waits `max_retry × interval` (180 s).
- A falsy `image_url` or `image_base64` (an empty string, `null`, `false`, `0`, an empty list or dict) counts as missing, just as an absent one does. A body that is not a dict raises AttributeError on `get`, which gives 500.
- The extension stops at a second `/` as well as at `;`.
- A reply that lacks `data`, or whose `data` is a dict without `task_id` (or `url` for the image host), raises `KeyError`. A reply whose body or `data` is not a dict (a list, a string, a number or `null`) raises `TypeError` instead. There is no dedicated error for either.

## Model

| member | source | states |
|---|---|---|
| Values.Get | proxy.py:45-46 | `d.get(key, default)` succeeds iff `d` is a dict. It gives the value under `key`, or the default when the key is absent. On anything else it raises AttributeError naming the value's type and `get`. |
| Values.Subscript | proxy.py:47 | `d[key]` succeeds iff `d` is a dict holding `key`, and gives that value. A dict without the key raises KeyError; anything other than a dict raises TypeError naming its type. |
| Values.Truthy | proxy.py:45 | Python truthiness of a JSON value: `null`, `false`, `0`, the empty string, list and dict are falsy. `Pipeline.ImageUrlFirst`, `Pipeline.MissingImageIff` and `Materializer.UploadAcceptedIff` state what the proxy's `not` and `or` make of it. |
| Values.TypeName | proxy.py:45-46 | `type(x).__name__` of each JSON value, the name that AttributeError and TypeError messages carry; `Values.Get` and `Values.Subscript` state where it appears. |
| Values.NatToString | proxy.py:46 | The decimal digits of a natural number, as `str(n)` writes them: at least one, each a digit; `Values.NatToStringValue` states that they spell the number. Used by `PyStr` for numbers. |
| Values.NatToStringValue | proxy.py:46 | The digits spell `n`, and the first digit is `0` only for `n` = 0, so the string is the canonical decimal `str(n)`. |
| Values.PyStr | proxy.py:46 | `str()` of a JSON value as the f-string writes it; `Materializer.UploadRejected` states where it appears. |
| Values.Message | proxy.py:108-110 | `str(e)` of each exception the model raises; `Pipeline.Tripo` states that it is the text of every 500 answer. |
| Text.Split | proxy.py:26 | `str.split(sep)` gives at least one piece, and exactly one iff the separator is absent. No piece contains the separator. The first piece is the text before the first separator. |
| Text.SplitOnce | proxy.py:25 | `str.split(sep, 1)` gives two pieces iff the separator occurs. The first piece has no separator. The two pieces joined by the separator give back the string. |
| Text.SplitOnceAfter | proxy.py:25 | `split(sep, 1)` of two parts joined by the separator gives back the two parts when the first part has no separator. Later separators stay in the second part. |
| Text.StartsWith | proxy.py:93 | `s.startswith(prefix)`: `s` is at least as long as `prefix` and its first `len(prefix)` characters are `prefix`; `Pipeline.PublicUrl` states the routing on it. |
| Materializer.SplitDataUri | proxy.py:25 | The unpacking fails with ValueError iff the URI has no comma. Otherwise the header has no comma and header + "," + payload is the URI. |
| Materializer.SplitDataUriJoin | 123/proxy.py:25 | Splitting a comma-free header joined to any payload gives back that header and payload. Later commas stay in the payload. |
| Materializer.Extension | proxy.py:26 | `split("/")[1]` fails with IndexError iff the header has no `/`. An extension never contains `/` or `;`. |
| Materializer.ExtensionOf | 123/proxy.py:26 | `<prefix>/<ext><rest>` yields `ext` when `rest` is empty or starts with `/` or `;`. For example, `data:image/png;base64` yields `png`. |
| Materializer.SavedPath | proxy.py:27-28 | The path is `static/uploads/` followed by the file name. If the stem has no `/`, the name has none either, so the file stays in the upload folder. |
| Materializer.SaveBase64Image | proxy.py:24-31 | At most one file is written. Nothing is written iff the failure is the comma or slash error. On success, the written file is the returned path and holds the decoded payload. |
| Materializer.SaveWithoutComma | proxy.py:25 | A URI without a comma fails with the unpacking error and writes nothing. |
| Materializer.SaveWithoutSlash | proxy.py:26 | A header without `/` fails with IndexError and writes nothing. |
| Materializer.SaveWritesNamedFile | proxy.py:25-31 | For a well-formed URI, exactly one file is written, at `static/uploads/<stem>.<ext>`. It holds the decoded bytes and the path is returned. If decoding fails, the file is left empty and the decode error is raised. |
| Materializer.UploadVerdict | proxy.py:42-47 | What `upload_to_imgbb` makes of the host's reply; `Materializer.UploadAcceptedIff` and `Materializer.UploadRejected` state it for every reply. |
| Materializer.UploadToImgbb | proxy.py:33-47 | One upload of the base64 text of the file's bytes, then the verdict; `Pipeline.InlineRoute` states what is uploaded. |
| Materializer.UploadAcceptedIff | proxy.py:42-47 | The upload gives a URL iff the host answered with a dict whose `success` is truthy and whose `data` is a dict holding `url`. The result is that `url`. A failed request keeps its own error, a body that is not a dict raises the AttributeError of `get`, and with a truthy `success` a missing `data` raises KeyError and otherwise `data["url"]` decides the outcome. |
| Materializer.UploadRejected | 123/proxy.py:45-46 | A falsy or missing `success` raises "ImgBB upload failed: " followed by `str()` of the host's `error.message`, whatever its type, or "Unknown error" when there is none. An `error` that is not a dict raises AttributeError. |
| TaskClient.PayloadCarriesImage | proxy.py:49-58 | The payload has exactly the keys type, model and input, with type "generation" and model "image-to-3d". Its `input` has exactly the image URL, unchanged, and the two texture options. |
| TaskClient.PayloadInjective | 123/proxy.py:50-58 | Two payloads are equal iff they were built from the same URL and the same options. |
| TaskClient.TaskIdIff | proxy.py:66-67 | A task id is obtained iff the answer is a dict whose `data` is a dict holding `task_id`, and it is that value. A failed request raises its own error. |
| TaskClient.TaskPayload | proxy.py:50-58 | The literal payload of `create_task`; `TaskClient.PayloadCarriesImage` and `TaskClient.PayloadInjective` state its keys and values. |
| TaskClient.TaskId | proxy.py:64-67 | `resp.json()["data"]["task_id"]` after `raise_for_status()`; `TaskClient.TaskIdIff` states it for every reply. |
| TaskClient.CreateTask | proxy.py:49-67 | One submission of the payload, then the task id; `Pipeline.Submit` states its use. |
| Poller.Inspect | proxy.py:74-81 | A reply never decides a timeout. A failed request aborts the poll with its own error instead of counting as pending. A raised "Task failed" error carries "Task failed: " followed by the reply's text. |
| Poller.PollTask | proxy.py:71-83 | The loop's outcome and its query and sleep counts are those of `Poll`. It makes at most `max_retry` queries (none when `max_retry <= 0`), and every reply before the last query was pending. On success, the output is that of the last reply, after one more query than sleeps. On timeout, it made `max_retry` queries and `max_retry` sleeps. |
| Poller.SkipPending | proxy.py:73-82 | Pending attempts are passed over: a run from attempt i equals the run from k when attempts i to k−1 are pending. |
| Poller.StopsAtFirstTerminal | proxy.py:73-81 | If the first non-pending reply is at attempt k < max_retry, the run ends there. It gives that reply's output or error, after k+1 queries and k sleeps. |
| Poller.TimesOutWhenAllPending | proxy.py:73-83 | If all max_retry replies are pending, the run times out after max_retry queries and max_retry sleeps. With max_retry ≤ 0 it times out after none. |
| Poller.PollFromShape | 123/proxy.py:73-83 | From attempt i, the run makes between i and max_retry queries. It sleeps once after each pending reply, and a run that does not time out ends on the terminal reply that decides its outcome. |
| Poller.PollShape | 123/proxy.py:71-83 | The run times out iff the first max_retry replies are all pending. Otherwise it makes exactly one more query than sleeps. |
| Poller.WorstCaseWait | proxy.py:71-83 | With the defaults (60 attempts, 3 s), a run sleeps at most 180 s in total. A timeout sleeps exactly 180 s. |
| Poller.QueriesFrom | proxy.py:73-75 | A run from attempt i makes the query of attempt i whenever one is left. |
| Poller.NoFurtherQueries | proxy.py:78-81 | The run depends only on the replies to the queries it made. Two servers that agree on those replies give the same run, so no query follows the one that ended it. |
| Poller.OtherStatusIsPending | proxy.py:76-82 | For any dict reply, whatever its other keys: a missing `data`, a `data` without `status`, or any status other than success, fail and error leaves the job pending. |
| Poller.TerminalStatus | proxy.py:76-81 | For any dict reply whose `data` is a dict with a status, whatever its other keys: "success" gives `data`'s `output`, or `{}` when it has none. "fail" and "error" raise "Task failed: " followed by the reply's text. |
| Poller.PendingIff | proxy.py:74-82 | A reply leaves the job pending iff the request succeeded, the body is a dict, its `data` is absent or a dict, and the status there is none of success, fail and error. |
| Poller.NonDictReplyAborts | proxy.py:76-77 | A body that is not a dict, or a `data` that is not a dict, stops the poll with the AttributeError of `get` naming that value's type; it is not counted as pending. |
| Poller.PollFrom | proxy.py:73-83 | The loop from attempt i on; `Poller.PollFromShape`, `Poller.SkipPending` and `Poller.QueriesFrom` state its runs. |
| Poller.Poll | proxy.py:71-83 | `poll_task` as a function of the replies; `Poller.PollShape`, `Poller.StopsAtFirstTerminal` and `Poller.TimesOutWhenAllPending` state its outcome and counts, and `Poller.PollTask` is the loop proved equal to it. |
| Pipeline.PublicUrl | proxy.py:93-99 | At most a write and then an upload happen, in that order. A string starting with `data:image/` goes through the save and the upload. Any other string is returned unchanged with no effect. A value that is not a string raises AttributeError on `startswith`. |
| Pipeline.UploadInline | proxy.py:94-98 | At most two effects, a write and then an upload. A URL is produced only after both. A failed save ends the route with nothing uploaded. Otherwise the bytes written to the file are the ones uploaded, and the result is the host's verdict. |
| Pipeline.InlineRoute | 123/proxy.py:95-98 | For a comma-free header naming an extension, `static/uploads/<stem>.<ext>` is written. If the payload decodes, the file holds the decoded bytes, their base64 text is uploaded, and the host's verdict is the result. If not, the file is left empty and the decode error is raised. |
| Pipeline.Submit | proxy.py:93-101 | The effects are in pipeline order. When getting the public URL fails, that failure is the whole result and nothing is submitted. Otherwise the effects are those of getting the URL followed by one submission of exactly that URL, and the result is the job id read from the reply. |
| Pipeline.Complete | proxy.py:102-106 | The only effect is the poll. It answers iff the poll succeeds and the output's two URLs can be extracted, and then gives 200 with exactly those URLs. A poll error or an extraction error passes through unchanged. |
| Pipeline.Run | proxy.py:88-106 | The effects are in pipeline order. A normal answer is either the 400 "Missing image data" with no effects or a 200 with the asset URLs. |
| Pipeline.Tripo | proxy.py:86-110 | The effects are those of the `try` block. The answer is 500 iff the block raised, and then it carries `str(e)` of that exception; otherwise it is the block's own answer. |
| Pipeline.SelectImage | proxy.py:89 | `j.get("image_url") or j.get("image_base64")`; `Pipeline.ImageUrlFirst` states it for every dict body and `Pipeline.NonDictBodyFails` for every other body. |
| Pipeline.PollStage | proxy.py:102 | `poll_task(task_id)` with its defaults, recorded as one poll effect; `Pipeline.Complete` states its use. |
| Pipeline.ExtractAssets | proxy.py:104-105 | The two chained `get`s on the output; `Pipeline.ExtractAssetsIff` states when they succeed and what they give. |
| Pipeline.UnparsableFails | proxy.py:88-110 | A body that does not parse gives a 500 with the parser's message and no effects. |
| Pipeline.NonDictBodyFails | proxy.py:89-110 | A body that is not a dict gives a 500 with the AttributeError of `get` naming its type, and no effects. |
| Pipeline.NonStringImageFails | proxy.py:93-110 | A truthy image that is not a string gives a 500 with the AttributeError of `startswith` naming its type, and no effects. |
| Pipeline.SubmitFailureFails | proxy.py:93-110 | A failure of the save, the decoding, the upload or `create_task` gives a 500 with its message, after exactly the effects of the submission stage; nothing is polled. |
| Pipeline.InlineFailureFails | proxy.py:93-110 | On the inline route, an undecodable payload gives a 500 with the decode error after one write, and a refused or failed upload gives a 500 with its message after the write and the upload. |
| Pipeline.ImageUrlFirst | proxy.py:89 | A truthy `image_url` is used. Otherwise `image_base64` is used, whatever its value. |
| Pipeline.MissingImageIff | proxy.py:89-91 | The answer is 400 iff the body is a dict in which neither `image_url` nor `image_base64` is truthy. It is then "Missing image data", and nothing was saved, uploaded, submitted or polled. |
| Pipeline.ResponseShape | proxy.py:86-110 | The code is 200, 400 or 500, and 200 iff the answer carries asset URLs. Each kind of external call happens at most once, in the order save, upload, submit, poll. |
| Pipeline.RemoteUrlPassesThrough | proxy.py:93-101 | A non-empty string without the `data:image/` prefix is submitted unchanged as the first effect. Nothing is saved or uploaded. |
| Pipeline.InlineHeaderHasSlash | 123/proxy.py:25-26 | A string with the `data:image/` prefix and a comma always has an extension, so IndexError cannot happen on this route. |
| Pipeline.InlineWithoutComma | proxy.py:93-95 | An inline image without a comma gives a 500 with the unpacking message, and nothing is done. |
| Pipeline.PublicUrlFirst | proxy.py:93-101 | The handler's effects start with those of getting the public URL. When a URL was obtained, the next effect is the submission of that URL. |
| Pipeline.SubmittedThenCompleted | proxy.py:101-106 | A submitted task that completes is answered by the completion, after the effects of the submission and of the poll. |
| Pipeline.HandledEffects | proxy.py:93-102 | Once an image is picked, the effects are those of the submission, followed by the poll when a task id came back. |
| Pipeline.InlinePublicUrl | proxy.py:93-98 | An inline image writes `static/uploads/<stem>.<ext>`. If the payload decodes, its bytes are uploaded as base64 and the host's verdict becomes the public URL. If not, the file is left empty and the decode error is raised. |
| Pipeline.InlineImageIsUploaded | 123/proxy.py:93-101 | On the inline route the effects start with the write, then the upload of the decoded bytes, then the submission of the host's URL (not the data URI). |
| Pipeline.ExtractAssetsIff | proxy.py:104-105 | Extraction succeeds iff the output is a dict and each of `model_mesh` and `rendered_image` is a dict when present. Missing levels give null. |
| Pipeline.AnswerFollowsPoll | proxy.py:101-110 | After a submission, the effects end with the submission and then the poll. A poll error (fail, error, timeout, bad reply) becomes a 500 with its message. A success gives 200 with the output's two URLs, or a 500 with the AttributeError when the output or one of its levels is not a dict. |
| Pipeline.InlineSuccess | proxy.py:86-106 | A `data:image/<ext>;base64,<payload>` body, an accepting host, a task id and a first poll that succeeds give 200 with the two URLs. The effects are exactly one write, one upload, one submission and one status query. |
| Pipeline.InlinePublicUrlOf | proxy.py:93-98 | For such a body, with a payload that decodes and an accepted upload, the public URL is the host's URL. Its effects are the write of `<stem>.<ext>` holding the decoded bytes and then their upload. |
| Pipeline.InlineSubmitted | proxy.py:93-101 | For such a body, submission writes `<stem>.<ext>`, uploads the decoded bytes and submits the host's URL, and returns the job id. |
| Pipeline.FirstPollSucceeds | proxy.py:102-106 | A first status reply of success with both URLs ends polling after one query and no sleep, with a 200 answer. |
| Pipeline.InlineUrlOf | proxy.py:93 | `data:image/<ext>;base64,<payload>` has the inline prefix and splits into its header and payload, and the header's extension is `<ext>`. |

## Left out

- Flask routing, CORS, static file serving and `app.run`: these are framework wiring, with no decisions in them.
- The configuration (`API_BASE`, `TRIPO_API_KEY`, `IMGBB_API_KEY`, `load_dotenv`): these are opaque values. Request URLs, headers and the upload's `key` field are not recorded in the effects.
- HTTP transport: each request is answered by a given `Reply`. A connection error, a non-2xx status (`raise_for_status`) and a body that is not JSON are all one `Failed(message)` reply. They propagate the same way in the source.
- Base64 (section 4 of RFC 4648): decoding and encoding are functions supplied from outside.
- The file system: `os.makedirs` and `os.path.join` are left out, with the path written as `static/uploads/<name>`. A write is recorded as an effect, and the read before the upload returns the bytes written. Open or write failures are not modelled.
- `uuid.uuid4()`: the stem is a parameter, so file-name uniqueness across requests is not modelled.
- `time.sleep`: sleeps are counted. `poll_task`'s `interval` parameter is used only through its default of 3 s.
- `print` and `traceback` logging, and concurrency across Flask workers.
- `request.get_json(force=True)`: a body that does not parse is the input `Unparsable(message)`, which gives a 500 with that message. Flask's exact text is not modelled.
- JSON numbers are integers. Floats, and hence the truthiness and `str()` of `0.0` and similar values, are not modelled. Duplicate keys in a JSON object are not modelled.
- Values.PyStr: the `str()` of a JSON array or object inside an error message is written as a fixed placeholder, not as Python's repr.
- Values.Message: the `TypeError` texts for subscripting a list or a str follow Python 3.11 wording. Other versions differ.

=== FILE: io.dfy ===
/** What the proxy exchanges with the outside world.  Every request it makes
    is answered by a `Reply` supplied from outside the model, and every
    externally visible thing it does is recorded as an `Effect`. */
module Io {
  import opened Values

  /** One HTTP request as the proxy sees it after `raise_for_status()` and
      `.json()`: either one of those (or the connection) raised, or the
      server answered with a JSON body. */
  datatype Reply =
    | Failed(message: string)
    | Answered(text: string, body: Json)

  /** What `base64.b64decode` does with a payload. */
  datatype Decoding = Decoded(bytes: Bytes) | Undecodable(message: string)

  /** The externally visible actions of one request, in the order made. */
  datatype Effect =
    | WriteFile(path: string, content: Bytes)              // open(path, "wb") and f.write(content)
    | PostImage(image: string)                             // form post of the base64 image to the image host
    | PostTask(payload: Json)                              // POST {API_BASE}/task
    | PollStatus(taskId: Json, queries: nat, sleeps: nat)  // the GET /task/{id} queries and the sleeps between them

  /** A step of the pipeline: what it did, then what it produced. */
  datatype Staged<T> = Staged(effects: seq<Effect>, result: Result<T>)
}

=== FILE: materializer.dfy ===
/** The image materializer of proxy.py: `save_base64_image` turns a data URI
    into a file under the upload folder, and `upload_to_imgbb` posts that
    file to the image host and reads the public URL from the host's answer.
    The base64 codec and the file system are outside the model: decoding and
    encoding are functions supplied by the caller, and the file read back by
    the upload holds the bytes just written. */
module Materializer {
  import opened Values
  import opened Text
  import opened Io

  /** `os.path.join("static", "uploads")`. */
  const UploadFolder: string := "static/uploads"

  /** `header, encoded = base64_data.split(",", 1)`: the header is everything
      before the first comma, the payload everything after it. */
  function SplitDataUri(uri: string): (r: Result<(string, string)>)
    ensures r.Err? <==> ',' !in uri
    ensures r.Err? ==> r.error == Unpack
    ensures r.Ok? ==> ',' !in r.value.0 && uri == r.value.0 + "," + r.value.1
  {
    var parts := SplitOnce(uri, ',');
    if |parts| == 2 then Ok((parts[0], parts[1])) else Err(Unpack)
  }

  /** `header.split("/")[1].split(";")[0]`: the text after the first `/`,
      cut at the next `/` or `;`. */
  function Extension(header: string): (r: Result<string>)
    ensures r.Err? <==> '/' !in header
    ensures r.Err? ==> r.error == IndexOutOfRange
    ensures r.Ok? ==> '/' !in r.value && ';' !in r.value
  {
    var pieces := Split(header, '/');
    if |pieces| < 2 then Err(IndexOutOfRange) else Ok(Split(pieces[1], ';')[0])
  }

  /** `os.path.join(UPLOAD_FOLDER, f"{stem}.{ext}")`: the file stays directly
      inside the upload folder whenever the stem has no `/` (a uuid4 hex
      string never has one, and an extension never does). */
  function SavedPath(stem: string, ext: string): (path: string)
    ensures |path| > |UploadFolder| && path[..|UploadFolder| + 1] == UploadFolder + "/"
    ensures path[|UploadFolder| + 1..] == stem + "." + ext
    ensures '/' !in stem && '/' !in ext ==> '/' !in path[|UploadFolder| + 1..]
  {
    var name := stem + "." + ext;
    assert UploadFolder + "/" + name == (UploadFolder + "/") + name;
    UploadFolder + "/" + name
  }

  /** `save_base64_image(uri)` with `stem` for `uuid.uuid4().hex`.  The file
      is opened before the payload is decoded, so a payload that does not
      decode leaves an empty file behind. */
  function SaveBase64Image(uri: string, stem: string, decode: string -> Decoding): (r: Staged<string>)
    ensures |r.effects| <= 1 && (|r.effects| == 1 ==> r.effects[0].WriteFile?)
    ensures r.effects == [] <==> r.result.Err? && (r.result.error == Unpack || r.result.error == IndexOutOfRange)
    ensures r.result.Ok? ==>
      && SplitDataUri(uri).Ok? && decode(SplitDataUri(uri).value.1).Decoded?
      && r.effects == [WriteFile(r.result.value, decode(SplitDataUri(uri).value.1).bytes)]
  {
    match SplitDataUri(uri)
    case Err(e) => Staged([], Err(e))
    case Ok((header, encoded)) =>
      match Extension(header)
      case Err(e) => Staged([], Err(e))
      case Ok(ext) =>
        var path := SavedPath(stem, ext);
        match decode(encoded)
        case Decoded(bytes) => Staged([WriteFile(path, bytes)], Ok(path))
        case Undecodable(m) => Staged([WriteFile(path, [])], Err(BadBase64(m)))
  }

  /** The verdict `upload_to_imgbb` draws from the host's reply: a falsy or
      missing `success` is an error carrying the host's `error.message` (or
      "Unknown error"); otherwise the result is `data.url`. */
  function UploadVerdict(reply: Reply): Result<Json> {
    match reply
    case Failed(m) => Err(RequestFailed(m))
    case Answered(_, body) =>
      var success :- Get(body, "success", JNull);
      if !Truthy(success) then
        var error :- Get(body, "error", JObj(map[]));
        var message :- Get(error, "message", JStr("Unknown error"));
        Err(Raised("ImgBB upload failed: " + PyStr(message)))
      else
        var data :- Subscript(body, "data");
        Subscript(data, "url")
  }

  /** `upload_to_imgbb(path)` for a file holding `content`: one form post of
      the base64 text of the content, then the verdict on the reply. */
  function UploadToImgbb(content: Bytes, encode: Bytes -> string, reply: Reply): Staged<Json> {
    Staged([PostImage(encode(content))], UploadVerdict(reply))
  }

  // ---------------------------------------------------------------------
  // Properties of the data-URI header parsing

  /** Splitting is the inverse of joining with a comma: later commas stay in
      the payload. */
  lemma SplitDataUriJoin(header: string, payload: string)
    requires ',' !in header
    ensures SplitDataUri(header + "," + payload) == Ok((header, payload))
  {
    SplitOnceAfter(header, payload, ',');
  }

  /** The extension is recovered from any header of the form
      `<prefix>/<ext><rest>` where `rest` is empty or starts at a `/` or `;`. */
  lemma ExtensionOf(prefix: string, ext: string, rest: string)
    requires '/' !in prefix && '/' !in ext && ';' !in ext
    requires rest == [] || rest[0] == '/' || rest[0] == ';'
    ensures Extension(prefix + "/" + ext + rest) == Ok(ext)
  {
    var header := prefix + "/" + ext + rest;
    assert header == prefix + ['/'] + (ext + rest);
    SplitAfter(prefix, ext + rest, '/');
    var pieces := Split(header, '/');
    assert pieces[1] == Split(ext + rest, '/')[0];
    FirstPieceAfter(ext, rest, '/');
    var tail := Split(rest, '/')[0];
    assert pieces[1] == ext + tail;
    if rest != [] && rest[0] == ';' {
      assert Find(rest, '/') != 0;
      assert tail != [] && tail[0] == ';';
    } else if rest != [] {
      FirstPieceEnds([], rest, '/');
      assert [] + rest == rest;
      assert tail == [];
    }
    FirstPieceEnds(ext, tail, ';');
  }

  /** A data URI without a comma is refused before anything is written. */
  lemma SaveWithoutComma(uri: string, stem: string, decode: string -> Decoding)
    requires ',' !in uri
    ensures SaveBase64Image(uri, stem, decode) == Staged([], Err(Unpack))
  {
  }

  /** A header without `/` is refused before anything is written. */
  lemma SaveWithoutSlash(header: string, payload: string, stem: string, decode: string -> Decoding)
    requires ',' !in header && '/' !in header
    ensures SaveBase64Image(header + "," + payload, stem, decode) == Staged([], Err(IndexOutOfRange))
  {
    SplitDataUriJoin(header, payload);
  }

  /** A well-formed data URI writes exactly one file, named `<stem>.<ext>`
      under the upload folder, holding the decoded payload (or nothing when
      the payload does not decode), and returns that path. */
  lemma SaveWritesNamedFile(header: string, payload: string, stem: string, decode: string -> Decoding)
    requires ',' !in header && '/' in header
    ensures Extension(header).Ok?
    ensures var path := SavedPath(stem, Extension(header).value);
            SaveBase64Image(header + "," + payload, stem, decode) ==
              match decode(payload)
              case Decoded(bytes) => Staged([WriteFile(path, bytes)], Ok(path))
              case Undecodable(m) => Staged([WriteFile(path, [])], Err(BadBase64(m)))
  {
    SplitDataUriJoin(header, payload);
  }

  // ---------------------------------------------------------------------
  // Properties of the upload verdict

  /** The upload yields a URL exactly when the host answered with a dict
      whose `success` is truthy and whose `data` is a dict holding `url`;
      that URL is the result.  A failed request keeps its own error. */
  lemma UploadAcceptedIff(reply: Reply)
    ensures UploadVerdict(reply).Ok? <==>
      && reply.Answered? && reply.body.JObj?
      && "success" in reply.body.fields && Truthy(reply.body.fields["success"])
      && "data" in reply.body.fields && reply.body.fields["data"].JObj?
      && "url" in reply.body.fields["data"].fields
    ensures UploadVerdict(reply).Ok? ==>
      UploadVerdict(reply).value == reply.body.fields["data"].fields["url"]
    ensures reply.Failed? ==> UploadVerdict(reply) == Err(RequestFailed(reply.message))
    ensures reply.Answered? && !reply.body.JObj? ==>
      UploadVerdict(reply) == Err(NoAttribute(TypeName(reply.body), "get"))
    ensures reply.Answered? && reply.body.JObj? && "success" in reply.body.fields && Truthy(reply.body.fields["success"]) ==>
      UploadVerdict(reply) ==
        if "data" in reply.body.fields then Subscript(reply.body.fields["data"], "url") else Err(MissingKey("data"))
  {
  }

  /** A dict answer whose `success` is falsy or missing is an upload error
      carrying `str()` of the host's message, or "Unknown error" when there
      is none. */
  lemma UploadRejected(text: string, fields: map<string, Json>)
    requires !Truthy(if "success" in fields then fields["success"] else JNull)
    ensures var verdict := UploadVerdict(Answered(text, JObj(fields)));
      && ("error" !in fields ==> verdict == Err(Raised("ImgBB upload failed: " + "Unknown error")))
      && ("error" in fields && fields["error"].JObj? && "message" !in fields["error"].fields ==>
            verdict == Err(Raised("ImgBB upload failed: " + "Unknown error")))
      && ("error" in fields && fields["error"].JObj? && "message" in fields["error"].fields ==>
            verdict == Err(Raised("ImgBB upload failed: " + PyStr(fields["error"].fields["message"]))))
      && ("error" in fields && !fields["error"].JObj? ==>
            verdict == Err(NoAttribute(TypeName(fields["error"]), "get")))
  {
  }
}

=== FILE: pipeline.dfy ===
/** The `/tripo` handler of proxy.py: pick the image from the request body,
    turn an inline data URI into a public URL, submit the generation task,
    poll it, and answer with the two asset URLs.  Every exception raised on
    the way becomes a 500 answer carrying its message; a missing image is
    the one 400 answer. */
module Pipeline {
  import opened Values
  import opened Text
  import opened Io
  import opened Materializer
  import opened TaskClient
  import opened Poller

  /** The marker of an inline image, `data:image/`. */
  const MediaType: string := "data:image"
  const InlinePrefix: string := MediaType + "/"

  /** The request body as `request.get_json(force=True)` reads it. */
  datatype Incoming = Body(json: Json) | Unparsable(message: string)

  /** The JSON the handler answers with. */
  datatype Answer = Assets(modelUrl: Json, previewUrl: Json) | Problem(error: string)

  datatype Response = Response(code: int, answer: Answer)

  /** What the outside world contributes to one request. */
  datatype Environment = Environment(
    stem: string,                // uuid.uuid4().hex
    decode: string -> Decoding,  // base64.b64decode
    encode: Bytes -> string,     // base64.b64encode(...).decode("utf-8")
    uploadReply: Reply,          // the image host's answer to the upload
    createReply: Reply,          // the answer to POST /task
    statusReply: nat -> Reply)   // the answer to GET /task/{id} on each attempt

  /** One handled request: the response and everything done on the way. */
  datatype Handled = Handled(response: Response, effects: seq<Effect>)

  /** `fields.get(key)`. */
  function Field(fields: map<string, Json>, key: string): Json {
    if key in fields then fields[key] else JNull
  }

  /** `j.get("image_url") or j.get("image_base64")`. */
  function SelectImage(j: Json): Result<Json> {
    var url :- Get(j, "image_url", JNull);
    if Truthy(url) then Ok(url) else Get(j, "image_base64", JNull)
  }

  /** The position of each kind of effect in the pipeline. */
  function Rank(e: Effect): nat {
    match e
    case WriteFile(_, _) => 0
    case PostImage(_) => 1
    case PostTask(_) => 2
    case PollStatus(_, _, _) => 3
  }

  /** Each kind of external call happens at most once, in pipeline order. */
  ghost predicate InPipelineOrder(effects: seq<Effect>) {
    forall i, j :: 0 <= i < j < |effects| ==> Rank(effects[i]) < Rank(effects[j])
  }

  /** Effects whose ranks are their positions are in pipeline order. */
  lemma RankedInOrder(effects: seq<Effect>)
    requires forall k :: 0 <= k < |effects| ==> Rank(effects[k]) == k
    ensures InPipelineOrder(effects)
  {
  }

  /** An effect of a later stage may follow effects in pipeline order. */
  lemma OrderedAppend(effects: seq<Effect>, last: Effect)
    requires InPipelineOrder(effects)
    requires forall k :: 0 <= k < |effects| ==> Rank(effects[k]) < Rank(last)
    ensures InPipelineOrder(effects + [last])
  {
  }

  /** The inline route, lines 94-98: the data URI is saved, the saved bytes
      are uploaded, and the host's URL replaces the input. */
  function UploadInline(uri: string, env: Environment): (r: Staged<Json>)
    ensures |r.effects| <= 2
    ensures forall k :: 0 <= k < |r.effects| ==> Rank(r.effects[k]) == k
    ensures r.result.Ok? ==> |r.effects| == 2
    ensures var saved := SaveBase64Image(uri, env.stem, env.decode);
      && (saved.result.Err? ==> r == Staged(saved.effects, Err(saved.result.error)))
      && (saved.result.Ok? ==>
            && r.effects == saved.effects + [PostImage(env.encode(saved.effects[0].content))]
            && r.result == UploadVerdict(env.uploadReply))
  {
    var saved := SaveBase64Image(uri, env.stem, env.decode);
    match saved.result
    case Err(e) =>
      MaterializedInOrder(saved.effects);
      Staged(saved.effects, Err(e))
    case Ok(_) =>
      var written := saved.effects[0];
      var uploaded := UploadToImgbb(written.content, env.encode, env.uploadReply);
      MaterializedInOrder([written] + uploaded.effects);
      Staged([written] + uploaded.effects, uploaded.result)
  }

  /** A write followed by an upload is ranked by position. */
  lemma MaterializedInOrder(effects: seq<Effect>)
    requires |effects| <= 2
    requires |effects| >= 1 ==> effects[0].WriteFile?
    requires |effects| == 2 ==> effects[1].PostImage?
    ensures forall k :: 0 <= k < |effects| ==> Rank(effects[k]) == k
  {
  }

  /** The `startswith("data:image/")` branch: an inline image goes through
      `UploadInline`; any other string is kept as it is. */
  function PublicUrl(uri: Json, env: Environment): (r: Staged<Json>)
    ensures |r.effects| <= 2
    ensures forall k :: 0 <= k < |r.effects| ==> Rank(r.effects[k]) == k
    ensures r.result.Ok? ==> |r.effects| == 0 || |r.effects| == 2
    ensures uri.JStr? && StartsWith(uri.s, InlinePrefix) ==> r == UploadInline(uri.s, env)
    ensures uri.JStr? && !StartsWith(uri.s, InlinePrefix) ==> r == Staged([], Ok(uri))
    ensures !uri.JStr? ==> r == Staged([], Err(NoAttribute(TypeName(uri), "startswith")))
  {
    match uri
    case JStr(s) =>
      if StartsWith(s, InlinePrefix) then UploadInline(s, env)
      else Staged([], Ok(uri))
    case _ => Staged([], Err(NoAttribute(TypeName(uri), "startswith")))
  }

  /** `proxy.py` lines 93-101: the public URL, then `create_task` on it.  The job is
      submitted once, and only when a public URL was obtained. */
  function Submit(uri: Json, env: Environment): (r: Staged<Json>)
    ensures InPipelineOrder(r.effects)
    ensures forall k :: 0 <= k < |r.effects| ==> Rank(r.effects[k]) <= 2
    ensures PublicUrl(uri, env).result.Err? ==> r == PublicUrl(uri, env)
    ensures PublicUrl(uri, env).result.Ok? ==>
      && r.effects == PublicUrl(uri, env).effects + [PostTask(TaskPayload(PublicUrl(uri, env).result.value, DefaultTexture, DefaultAlignment))]
      && r.result == TaskId(env.createReply)
  {
    var routed := PublicUrl(uri, env);
    match routed.result
    case Err(e) =>
      RankedInOrder(routed.effects);
      Staged(routed.effects, Err(e))
    case Ok(imageUrl) =>
      var created := CreateTask(imageUrl, env.createReply);
      SubmissionInOrder(routed.effects, created.effects);
      Staged(routed.effects + created.effects, created.result)
  }

  /** A submission after the effects of getting the public URL keeps the
      pipeline order. */
  lemma SubmissionInOrder(routed: seq<Effect>, created: seq<Effect>)
    requires |routed| <= 2 && forall k :: 0 <= k < |routed| ==> Rank(routed[k]) == k
    requires |created| == 1 && created[0].PostTask?
    ensures InPipelineOrder(routed + created)
    ensures forall k :: 0 <= k < |routed + created| ==> Rank((routed + created)[k]) <= 2
  {
    RankedInOrder(routed);
    OrderedAppend(routed, created[0]);
    assert routed + created == routed + [created[0]];
  }

  /** `poll_task(task_id)` with its default attempt count. */
  function PollStage(taskId: Json, env: Environment): Staged<Json> {
    var p := Poll(env.statusReply, DefaultMaxRetry);
    Staged([PollStatus(taskId, p.queries, p.sleeps)], p.outcome)
  }

  /** `output.get("model_mesh", {}).get("url")` and the same for
      `rendered_image`. */
  function ExtractAssets(output: Json): Result<(Json, Json)> {
    var mesh :- Get(output, "model_mesh", JObj(map[]));
    var model :- Get(mesh, "url", JNull);
    var rendered :- Get(output, "rendered_image", JObj(map[]));
    var preview :- Get(rendered, "url", JNull);
    Ok((model, preview))
  }

  /** `proxy.py` lines 102-106: poll the job and answer with its two asset URLs. */
  function Complete(taskId: Json, env: Environment): (r: Staged<Response>)
    ensures r.effects == PollStage(taskId, env).effects
    ensures r.result.Ok? ==> r.result.value.code == 200 && r.result.value.answer.Assets?
    ensures var polled := PollStage(taskId, env).result;
      && (r.result.Ok? <==> polled.Ok? && ExtractAssets(polled.value).Ok?)
      && (polled.Err? ==> r.result == Err(polled.error))
      && (polled.Ok? && ExtractAssets(polled.value).Err? ==> r.result == Err(ExtractAssets(polled.value).error))
      && (r.result.Ok? ==> r.result.value.answer == Assets(ExtractAssets(polled.value).value.0, ExtractAssets(polled.value).value.1))
  {
    var polled := PollStage(taskId, env);
    match polled.result
    case Err(e) => Staged(polled.effects, Err(e))
    case Ok(output) =>
      match ExtractAssets(output)
      case Err(e) => Staged(polled.effects, Err(e))
      case Ok((model, preview)) => Staged(polled.effects, Ok(Response(200, Assets(model, preview))))
  }

  /** The body of the `try` block. */
  function Run(request: Incoming, env: Environment): (r: Staged<Response>)
    ensures InPipelineOrder(r.effects)
    ensures r.result.Ok? ==>
      || r == Staged([], Ok(Response(400, Problem("Missing image data"))))
      || (r.result.value.code == 200 && r.result.value.answer.Assets?)
  {
    match request
    case Unparsable(m) => Staged([], Err(RequestFailed(m)))
    case Body(j) =>
      match SelectImage(j)
      case Err(e) => Staged([], Err(e))
      case Ok(uri) =>
        if !Truthy(uri) then Staged([], Ok(Response(400, Problem("Missing image data"))))
        else
          var submitted := Submit(uri, env);
          match submitted.result
          case Err(e) => Staged(submitted.effects, Err(e))
          case Ok(taskId) =>
            var completed := Complete(taskId, env);
            PollInOrder(submitted.effects, completed.effects);
            Staged(submitted.effects + completed.effects, completed.result)
  }

  /** The poll after the effects of the submission keeps the pipeline
      order. */
  lemma PollInOrder(submitted: seq<Effect>, completed: seq<Effect>)
    requires InPipelineOrder(submitted) && forall k :: 0 <= k < |submitted| ==> Rank(submitted[k]) <= 2
    requires |completed| == 1 && completed[0].PollStatus?
    ensures InPipelineOrder(submitted + completed)
  {
    OrderedAppend(submitted, completed[0]);
    assert submitted + completed == submitted + [completed[0]];
  }

  /** `tripo()`: the `try` block, and the `except` that turns any exception
      into a 500 answer carrying `str(e)`. */
  function Tripo(request: Incoming, env: Environment): (h: Handled)
    ensures h.effects == Run(request, env).effects
    ensures h.response.code == 500 <==> Run(request, env).result.Err?
    ensures Run(request, env).result.Err? ==>
      h.response == Response(500, Problem(Message(Run(request, env).result.error)))
    ensures Run(request, env).result.Ok? ==> h.response == Run(request, env).result.value
  {
    var run := Run(request, env);
    match run.result
    case Ok(response) => Handled(response, run.effects)
    case Err(e) => Handled(Response(500, Problem(Message(e))), run.effects)
  }

  // ---------------------------------------------------------------------
  // Properties of the handler

  /** `image_url` wins when it is truthy; otherwise `image_base64` is taken
      whatever it is. */
  lemma ImageUrlFirst(fields: map<string, Json>)
    ensures Truthy(Field(fields, "image_url")) ==> SelectImage(JObj(fields)) == Ok(fields["image_url"])
    ensures !Truthy(Field(fields, "image_url")) ==> SelectImage(JObj(fields)) == Ok(Field(fields, "image_base64"))
  {
  }

  /** The answer is 400 exactly when the body is a dict in which neither
      `image_url` nor `image_base64` is truthy; it is then "Missing image
      data" and nothing has been saved, uploaded, submitted or polled. */
  lemma MissingImageIff(request: Incoming, env: Environment)
    ensures Tripo(request, env).response.code == 400 <==>
      && request.Body? && request.json.JObj?
      && !Truthy(Field(request.json.fields, "image_url"))
      && !Truthy(Field(request.json.fields, "image_base64"))
    ensures Tripo(request, env).response.code == 400 ==>
      Tripo(request, env) == Handled(Response(400, Problem("Missing image data")), [])
  {
  }

  /** The handler answers 200 with the two URLs, 400, or 500 with a
      message; it makes each kind of external call at most once, in the
      order save, upload, submit, poll (no retries anywhere). */
  lemma ResponseShape(request: Incoming, env: Environment)
    ensures var h := Tripo(request, env);
      && h.response.code in {200, 400, 500}
      && (h.response.code == 200 <==> h.response.answer.Assets?)
      && InPipelineOrder(h.effects)
  {
  }

  /** A string without the inline prefix goes to `create_task` unchanged:
      the first effect is the submission of exactly that string, and
      nothing is saved or uploaded. */
  lemma RemoteUrlPassesThrough(request: Incoming, env: Environment, url: string)
    requires request.Body? && SelectImage(request.json) == Ok(JStr(url))
    requires url != "" && !StartsWith(url, InlinePrefix)
    ensures var h := Tripo(request, env);
      && |h.effects| >= 1
      && h.effects[0] == PostTask(TaskPayload(JStr(url), DefaultTexture, DefaultAlignment))
      && forall k :: 0 <= k < |h.effects| ==> !h.effects[k].WriteFile? && !h.effects[k].PostImage?
  {
  }

  /** An inline image always has an extension: its header starts with the
      prefix, so it holds a `/`, and saving can only fail for want of a
      comma or on the decoding. */
  lemma InlineHeaderHasSlash(uri: string)
    requires StartsWith(uri, InlinePrefix) && ',' in uri
    ensures SplitDataUri(uri).Ok? && Extension(SplitDataUri(uri).value.0).Ok?
  {
    FindPastPrefix(InlinePrefix, uri, ',');
    var header := SplitDataUri(uri).value.0;
    assert header[..|InlinePrefix|] == InlinePrefix;
    assert header[10] == header[..|InlinePrefix|][10] == InlinePrefix[10] == '/';
  }

  /** An inline image without a comma fails with the unpacking error before
      anything is written. */
  lemma InlineWithoutComma(request: Incoming, env: Environment, uri: string)
    requires request.Body? && SelectImage(request.json) == Ok(JStr(uri))
    requires StartsWith(uri, InlinePrefix) && ',' !in uri
    ensures Tripo(request, env) == Handled(Response(500, Problem(Message(Unpack))), [])
  {
  }

  /** A body that does not parse is answered with a 500 carrying the
      parser's message, before anything is done. */
  lemma UnparsableFails(message: string, env: Environment)
    ensures Tripo(Unparsable(message), env) == Handled(Response(500, Problem(message)), [])
  {
  }

  /** A body that is not a dict has no `get`: a 500 with the AttributeError,
      before anything is done. */
  lemma NonDictBodyFails(j: Json, env: Environment)
    requires !j.JObj?
    ensures Tripo(Body(j), env) == Handled(Response(500, Problem(Message(NoAttribute(TypeName(j), "get")))), [])
  {
  }

  /** A truthy image that is not a string has no `startswith`: a 500 with
      the AttributeError, before anything is done. */
  lemma NonStringImageFails(request: Incoming, env: Environment)
    requires request.Body? && SelectImage(request.json).Ok?
    requires Truthy(SelectImage(request.json).value) && !SelectImage(request.json).value.JStr?
    ensures Tripo(request, env) ==
      Handled(Response(500, Problem(Message(NoAttribute(TypeName(SelectImage(request.json).value), "startswith")))), [])
  {
  }

  /** Any failure before the job is submitted or while submitting it (the
      save, the decoding, the upload, its verdict, `create_task`) is
      answered with a 500 carrying its message, after exactly the effects
      made so far; nothing is polled. */
  lemma SubmitFailureFails(request: Incoming, env: Environment)
    requires request.Body? && SelectImage(request.json).Ok? && Truthy(SelectImage(request.json).value)
    requires Submit(SelectImage(request.json).value, env).result.Err?
    ensures var submitted := Submit(SelectImage(request.json).value, env);
      Tripo(request, env) == Handled(Response(500, Problem(Message(submitted.result.error))), submitted.effects)
  {
  }

  /** On the inline route, a payload that does not decode is answered with
      a 500 after the one (empty) write, and an upload the host refuses or
      that fails is answered with a 500 after the write and the upload. */
  lemma InlineFailureFails(request: Incoming, env: Environment, uri: string)
    requires request.Body? && SelectImage(request.json) == Ok(JStr(uri))
    requires StartsWith(uri, InlinePrefix) && ',' in uri
    ensures SplitDataUri(uri).Ok?
    ensures var decoded := env.decode(SplitDataUri(uri).value.1);
            var h := Tripo(request, env);
      && (decoded.Undecodable? ==>
            |h.effects| == 1 && h.response == Response(500, Problem(Message(BadBase64(decoded.message)))))
      && (decoded.Decoded? && UploadVerdict(env.uploadReply).Err? ==>
            |h.effects| == 2 && h.response == Response(500, Problem(Message(UploadVerdict(env.uploadReply).error))))
  {
    InlinePublicUrl(uri, env);
    if PublicUrl(JStr(uri), env).result.Err? {
      SubmitFailureFails(request, env);
    }
  }

  /** Once an image has been picked, the effects are those of the
      submission, followed by the poll when a task id came back. */
  lemma HandledEffects(request: Incoming, env: Environment)
    requires request.Body? && SelectImage(request.json).Ok? && Truthy(SelectImage(request.json).value)
    ensures var submitted := Submit(SelectImage(request.json).value, env);
      Tripo(request, env).effects ==
        submitted.effects + if submitted.result.Ok? then PollStage(submitted.result.value, env).effects else []
  {
  }

  /** An inline image with a comma is written to `<stem>.<ext>` under the
      upload folder; when its payload decodes, the decoded bytes are
      uploaded as base64 and the host's verdict is the public URL. */
  lemma InlinePublicUrl(uri: string, env: Environment)
    requires StartsWith(uri, InlinePrefix) && ',' in uri
    ensures SplitDataUri(uri).Ok? && Extension(SplitDataUri(uri).value.0).Ok?
    ensures var payload := SplitDataUri(uri).value.1;
            var path := SavedPath(env.stem, Extension(SplitDataUri(uri).value.0).value);
      PublicUrl(JStr(uri), env) ==
        match env.decode(payload)
        case Decoded(bytes) => Staged([WriteFile(path, bytes), PostImage(env.encode(bytes))], UploadVerdict(env.uploadReply))
        case Undecodable(m) => Staged([WriteFile(path, [])], Err(BadBase64(m)))
  {
    InlineHeaderHasSlash(uri);
    var header := SplitDataUri(uri).value.0;
    var payload := SplitDataUri(uri).value.1;
    assert uri == header + "," + payload;
    InlineRoute(header, payload, env);
  }

  /** The inline route on a data URI whose header names an extension: the
      file `<stem>.<ext>` is written, and the decoded bytes are uploaded
      when the payload decodes. */
  lemma InlineRoute(header: string, payload: string, env: Environment)
    requires ',' !in header && '/' in header
    ensures Extension(header).Ok?
    ensures var path := SavedPath(env.stem, Extension(header).value);
      UploadInline(header + "," + payload, env) ==
        match env.decode(payload)
        case Decoded(bytes) => Staged([WriteFile(path, bytes), PostImage(env.encode(bytes))], UploadVerdict(env.uploadReply))
        case Undecodable(m) => Staged([WriteFile(path, [])], Err(BadBase64(m)))
  {
    SaveWritesNamedFile(header, payload, env.stem, env.decode);
  }

  /** The whole inline route: the file is written first, then the decoded
      bytes are uploaded, and the host's URL, not the data URI, is what is
      submitted. */
  lemma InlineImageIsUploaded(request: Incoming, env: Environment, uri: string)
    requires request.Body? && SelectImage(request.json) == Ok(JStr(uri))
    requires StartsWith(uri, InlinePrefix) && ',' in uri
    ensures SplitDataUri(uri).Ok? && Extension(SplitDataUri(uri).value.0).Ok?
    ensures var payload := SplitDataUri(uri).value.1;
            var path := SavedPath(env.stem, Extension(SplitDataUri(uri).value.0).value);
            var h := Tripo(request, env);
      && |h.effects| >= 1
      && h.effects[0] == WriteFile(path, if env.decode(payload).Decoded? then env.decode(payload).bytes else [])
      && (env.decode(payload).Decoded? ==>
            && |h.effects| >= 2
            && h.effects[1] == PostImage(env.encode(env.decode(payload).bytes))
            && (UploadVerdict(env.uploadReply).Ok? ==>
                  && |h.effects| >= 3
                  && h.effects[2] == PostTask(TaskPayload(UploadVerdict(env.uploadReply).value, DefaultTexture, DefaultAlignment))))
  {
    InlinePublicUrl(uri, env);
    PublicUrlFirst(request, env);
  }

  /** The handler starts with the effects of getting the public URL, and
      the first thing it does with that URL is submit it. */
  lemma PublicUrlFirst(request: Incoming, env: Environment)
    requires request.Body? && SelectImage(request.json).Ok? && Truthy(SelectImage(request.json).value)
    ensures var h := Tripo(request, env);
            var p := PublicUrl(SelectImage(request.json).value, env);
      && |p.effects| <= |h.effects|
      && (forall k :: 0 <= k < |p.effects| ==> h.effects[k] == p.effects[k])
      && (p.result.Ok? ==>
            |p.effects| < |h.effects| &&
            h.effects[|p.effects|] == PostTask(TaskPayload(p.result.value, DefaultTexture, DefaultAlignment)))
  {
    HandledEffects(request, env);
  }

  /** The asset URLs are read through optional lookups: a missing level
      gives null, and only a level that is present but not a dict fails. */
  lemma ExtractAssetsIff(output: Json)
    ensures ExtractAssets(output).Ok? <==>
      && output.JObj?
      && ("model_mesh" in output.fields ==> output.fields["model_mesh"].JObj?)
      && ("rendered_image" in output.fields ==> output.fields["rendered_image"].JObj?)
    ensures ExtractAssets(output).Ok? ==> ExtractAssets(output).value == (
      (if "model_mesh" in output.fields then Field(output.fields["model_mesh"].fields, "url") else JNull),
      (if "rendered_image" in output.fields then Field(output.fields["rendered_image"].fields, "url") else JNull))
  {
  }

  /** Once the job is submitted, the answer is decided by the poll: its
      error becomes the 500 message (a "fail" status, a timeout, a bad
      reply), and a success gives the two URLs of its output, or a 500
      when its output has no dict where `get` is called.  The job is
      submitted once whatever the poll brings. */
  lemma AnswerFollowsPoll(request: Incoming, env: Environment, imageUrl: Json, taskId: Json)
    requires request.Body? && SelectImage(request.json).Ok? && Truthy(SelectImage(request.json).value)
    requires PublicUrl(SelectImage(request.json).value, env).result == Ok(imageUrl)
    requires TaskId(env.createReply) == Ok(taskId)
    ensures var h := Tripo(request, env);
            var p := Poll(env.statusReply, DefaultMaxRetry);
      && |h.effects| >= 2
      && h.effects[|h.effects| - 2] == PostTask(TaskPayload(imageUrl, DefaultTexture, DefaultAlignment))
      && h.effects[|h.effects| - 1] == PollStatus(taskId, p.queries, p.sleeps)
      && (p.outcome.Err? ==> h.response == Response(500, Problem(Message(p.outcome.error))))
      && (p.outcome.Ok? && ExtractAssets(p.outcome.value).Ok? ==>
            h.response == Response(200, Assets(ExtractAssets(p.outcome.value).value.0, ExtractAssets(p.outcome.value).value.1)))
      && (p.outcome.Ok? && ExtractAssets(p.outcome.value).Err? ==>
            h.response == Response(500, Problem(Message(ExtractAssets(p.outcome.value).error))))
  {
    HandledEffects(request, env);
  }

  /** A whole successful inline request: a `data:image/<ext>;base64,<payload>`
      body whose payload decodes, a host that accepts the upload, a task id,
      and a first poll that succeeds give a 200 answer with the output's two
      URLs, after exactly one write, one upload, one submission of the
      host's URL and one status query. */
  lemma InlineSuccess(ext: string, payload: string, bytes: Bytes, url: Json, taskId: Json,
                      model: Json, preview: Json, env: Environment)
    requires '/' !in ext && ';' !in ext && ',' !in ext
    requires env.decode(payload) == Decoded(bytes)
    requires UploadVerdict(env.uploadReply) == Ok(url)
    requires TaskId(env.createReply) == Ok(taskId)
    requires Inspect(env.statusReply(0)) ==
      Finished(JObj(map["model_mesh" := JObj(map["url" := model]), "rendered_image" := JObj(map["url" := preview])]))
    ensures Tripo(Body(JObj(map["image_base64" := JStr(InlinePrefix + ext + ";base64" + "," + payload)])), env) ==
      Handled(Response(200, Assets(model, preview)), [
        WriteFile(SavedPath(env.stem, ext), bytes),
        PostImage(env.encode(bytes)),
        PostTask(TaskPayload(url, DefaultTexture, DefaultAlignment)),
        PollStatus(taskId, 1, 0)])
  {
    var uri := InlinePrefix + ext + ";base64" + "," + payload;
    var request := Body(JObj(map["image_base64" := JStr(uri)]));
    InlineSubmitted(ext, payload, bytes, url, taskId, env);
    FirstPollSucceeds(taskId, model, preview, env);
    OnlyBase64Selected(uri);
    SubmittedThenCompleted(request, env, JStr(uri), taskId);
  }

  /** A body holding only `image_base64` selects it. */
  lemma OnlyBase64Selected(uri: string)
    ensures SelectImage(JObj(map["image_base64" := JStr(uri)])) == Ok(JStr(uri))
  {
  }

  /** A request whose image was submitted and whose task completed is
      answered by the completion, after the effects of both. */
  lemma SubmittedThenCompleted(request: Incoming, env: Environment, uri: Json, taskId: Json)
    requires request.Body? && SelectImage(request.json) == Ok(uri) && Truthy(uri)
    requires Submit(uri, env).result == Ok(taskId)
    requires Complete(taskId, env).result.Ok?
    ensures Tripo(request, env) ==
      Handled(Complete(taskId, env).result.value, Submit(uri, env).effects + Complete(taskId, env).effects)
  {
  }

  /** The submission part of `InlineSuccess`. */
  lemma InlineSubmitted(ext: string, payload: string, bytes: Bytes, url: Json, taskId: Json, env: Environment)
    requires '/' !in ext && ';' !in ext && ',' !in ext
    requires env.decode(payload) == Decoded(bytes)
    requires UploadVerdict(env.uploadReply) == Ok(url)
    requires TaskId(env.createReply) == Ok(taskId)
    ensures Submit(JStr(InlinePrefix + ext + ";base64" + "," + payload), env) ==
      Staged([WriteFile(SavedPath(env.stem, ext), bytes),
              PostImage(env.encode(bytes)),
              PostTask(TaskPayload(url, DefaultTexture, DefaultAlignment))], Ok(taskId))
  {
    InlinePublicUrlOf(ext, payload, bytes, url, env);
  }

  /** The public URL of a `data:image/<ext>;base64,<payload>` image whose
      payload decodes and whose upload is accepted: the file is written,
      its bytes uploaded, and the host's URL returned. */
  lemma InlinePublicUrlOf(ext: string, payload: string, bytes: Bytes, url: Json, env: Environment)
    requires '/' !in ext && ';' !in ext && ',' !in ext
    requires env.decode(payload) == Decoded(bytes)
    requires UploadVerdict(env.uploadReply) == Ok(url)
    ensures PublicUrl(JStr(InlinePrefix + ext + ";base64" + "," + payload), env) ==
      Staged([WriteFile(SavedPath(env.stem, ext), bytes), PostImage(env.encode(bytes))], Ok(url))
  {
    InlineHeaderOf(ext);
    InlineStartsWithPrefix(ext, payload);
    InlineRoute(InlinePrefix + ext + ";base64", payload, env);
  }

  /** The polling part of `InlineSuccess`. */
  lemma FirstPollSucceeds(taskId: Json, model: Json, preview: Json, env: Environment)
    requires Inspect(env.statusReply(0)) ==
      Finished(JObj(map["model_mesh" := JObj(map["url" := model]), "rendered_image" := JObj(map["url" := preview])]))
    ensures Complete(taskId, env) == Staged([PollStatus(taskId, 1, 0)], Ok(Response(200, Assets(model, preview))))
  {
    var output := JObj(map["model_mesh" := JObj(map["url" := model]), "rendered_image" := JObj(map["url" := preview])]);
    assert Poll(env.statusReply, DefaultMaxRetry) == Polled(Ok(output), 1, 0) by {
      assert PendingUpTo(env.statusReply, 0);
      StopsAtFirstTerminal(env.statusReply, DefaultMaxRetry, 0);
    }
    assert ExtractAssets(output) == Ok((model, preview));
  }

  /** The data URI `data:image/<ext>;base64,<payload>` is split into the
      header and the payload, and the header names `<ext>`. */
  lemma InlineUrlOf(ext: string, payload: string)
    requires '/' !in ext && ';' !in ext && ',' !in ext
    ensures var uri := InlinePrefix + ext + ";base64" + "," + payload;
      && StartsWith(uri, InlinePrefix) && ',' in uri
      && SplitDataUri(uri) == Ok((InlinePrefix + ext + ";base64", payload))
      && Extension(InlinePrefix + ext + ";base64") == Ok(ext)
  {
    var header := InlinePrefix + ext + ";base64";
    InlineStartsWithPrefix(ext, payload);
    InlineHeaderOf(ext);
    SplitDataUriJoin(header, payload);
  }

  /** `data:image/<ext>;base64,<payload>` starts with the inline prefix. */
  lemma InlineStartsWithPrefix(ext: string, payload: string)
    ensures StartsWith(InlinePrefix + ext + ";base64" + "," + payload, InlinePrefix)
  {
    assert StartsWith(InlinePrefix, InlinePrefix);
    StartsWithAppend(InlinePrefix, InlinePrefix, ext);
    StartsWithAppend(InlinePrefix + ext, InlinePrefix, ";base64");
    StartsWithAppend(InlinePrefix + ext + ";base64", InlinePrefix, ",");
    StartsWithAppend(InlinePrefix + ext + ";base64" + ",", InlinePrefix, payload);
  }

  /** The header `data:image/<ext>;base64` has no comma and names `<ext>`. */
  lemma InlineHeaderOf(ext: string)
    requires '/' !in ext && ';' !in ext && ',' !in ext
    ensures var header := InlinePrefix + ext + ";base64";
      ',' !in header && '/' in header && Extension(header) == Ok(ext)
  {
    var header := InlinePrefix + ext + ";base64";
    ExtensionOf(MediaType, ext, ";base64");
    assert Extension(header).Ok?;
    InlineHeaderCommaFree(ext);
  }

  /** The header `data:image/<ext>;base64` has a comma only where `<ext>`
      has one. */
  lemma InlineHeaderCommaFree(ext: string)
    requires ',' !in ext
    ensures ',' !in InlinePrefix + ext + ";base64"
  {
  }
}


=== FILE: poller.dfy ===
/** The job poller of proxy.py, `poll_task`: at most `max_retry` status
    queries, returning the output of the first "success", failing at once on
    "fail" or "error", sleeping after every other answer, and timing out
    when the attempts run out.  The status service is the function
    `server`, giving the reply to the query made on each attempt; sleeping
    is counted, not timed. */
module Poller {
  import opened Values
  import opened Io

  /** `poll_task`'s defaults: 60 attempts, 3 seconds apart. */
  const DefaultMaxRetry: int := 60
  const DefaultInterval: nat := 3

  /** How one pass of the loop reads a reply. */
  datatype Step = Finished(output: Json) | Aborted(error: Error) | Pending

  /** The loop body after the request: `d = resp.json().get("data", {})`,
      `status = d.get("status")`, then the three-way decision. */
  function Inspect(reply: Reply): (s: Step)
    ensures s.Aborted? ==> s.error != PollTimeout
    ensures reply.Failed? ==> s == Aborted(RequestFailed(reply.message))
    ensures s.Aborted? && s.error.Raised? ==> reply.Answered? && s.error.message == "Task failed: " + reply.text
  {
    match reply
    case Failed(m) => Aborted(RequestFailed(m))
    case Answered(text, body) =>
      match Get(body, "data", JObj(map[]))
      case Err(e) => Aborted(e)
      case Ok(d) =>
        match Get(d, "status", JNull)
        case Err(e) => Aborted(e)
        case Ok(status) =>
          if status == JStr("success") then
            match Get(d, "output", JObj(map[]))
            case Ok(output) => Finished(output)
            case Err(e) => Aborted(e)
          else if status == JStr("fail") || status == JStr("error") then
            Aborted(Raised("Task failed: " + text))
          else
            Pending
  }

  /** What one run of the loop comes to: its outcome and how many status
      queries and sleeps it made. */
  datatype Polled = Polled(outcome: Result<Json>, queries: nat, sleeps: nat)

  /** The loop from attempt `i` on, the earlier attempts having all been
      pending. */
  function PollFrom(server: nat -> Reply, maxRetry: int, i: nat): Polled
    decreases maxRetry - i
  {
    if maxRetry <= i then Polled(Err(PollTimeout), i, i)
    else
      match Inspect(server(i))
      case Finished(output) => Polled(Ok(output), i + 1, i)
      case Aborted(e) => Polled(Err(e), i + 1, i)
      case Pending => PollFrom(server, maxRetry, i + 1)
  }

  /** `poll_task(task_id, max_retry)` as a function of the server's replies. */
  function Poll(server: nat -> Reply, maxRetry: int): Polled {
    PollFrom(server, maxRetry, 0)
  }

  /** The first `n` replies all leave the job pending. */
  ghost predicate PendingUpTo(server: nat -> Reply, n: int) {
    forall j: nat :: j < n ==> Inspect(server(j)).Pending?
  }

  /** `for _ in range(max_retry)`: query, decide, sleep. */
  method PollTask(server: nat -> Reply, maxRetry: int) returns (outcome: Result<Json>, queries: nat, sleeps: nat)
    ensures Polled(outcome, queries, sleeps) == Poll(server, maxRetry)
    ensures queries <= if maxRetry < 0 then 0 else maxRetry
    ensures PendingUpTo(server, sleeps)
    ensures outcome.Ok? ==> queries == sleeps + 1 && Inspect(server(sleeps)) == Finished(outcome.value)
    ensures outcome == Err(PollTimeout) ==> queries == sleeps == (if maxRetry < 0 then 0 else maxRetry)
  {
    queries, sleeps := 0, 0;
    var attempt := 0;
    while attempt < maxRetry
      invariant 0 <= attempt && (attempt <= maxRetry || attempt == 0)
      invariant queries == attempt && sleeps == attempt
      invariant PendingUpTo(server, attempt)
      invariant PollFrom(server, maxRetry, attempt) == Poll(server, maxRetry)
      decreases maxRetry - attempt
    {
      var reply := server(attempt);
      queries := queries + 1;
      var step := Inspect(reply);
      if step.Finished? {
        outcome := Ok(step.output);
        return;
      }
      if step.Aborted? {
        outcome := Err(step.error);
        return;
      }
      sleeps := sleeps + 1;
      attempt := attempt + 1;
    }
    outcome := Err(PollTimeout);
  }

  // ---------------------------------------------------------------------
  // Properties of the loop, stated on its specification

  /** Pending attempts are passed over: the run from `i` is the run from `k`. */
  lemma {:induction false} SkipPending(server: nat -> Reply, maxRetry: int, i: nat, k: nat)
    requires i <= k && k <= maxRetry
    requires forall j: nat :: i <= j < k ==> Inspect(server(j)).Pending?
    ensures PollFrom(server, maxRetry, i) == PollFrom(server, maxRetry, k)
    decreases k - i
  {
    if i < k {
      SkipPending(server, maxRetry, i + 1, k);
    }
  }

  /** The run stops at the first terminal reply: its output on "success",
      its error otherwise, after exactly `k + 1` queries and `k` sleeps. */
  lemma StopsAtFirstTerminal(server: nat -> Reply, maxRetry: int, k: nat)
    requires k < maxRetry
    requires PendingUpTo(server, k)
    requires !Inspect(server(k)).Pending?
    ensures Poll(server, maxRetry) == Polled(
      match Inspect(server(k))
      case Finished(output) => Ok(output)
      case Aborted(e) => Err(e)
      case Pending => Err(PollTimeout),
      k + 1, k)
  {
    SkipPending(server, maxRetry, 0, k);
  }

  /** With no terminal reply among the first `maxRetry`, the run times out
      after exactly `maxRetry` queries and as many sleeps, one after each
      query including the last; with `maxRetry <= 0` it makes none. */
  lemma TimesOutWhenAllPending(server: nat -> Reply, maxRetry: int)
    requires PendingUpTo(server, maxRetry)
    ensures var n := if maxRetry < 0 then 0 else maxRetry;
            Poll(server, maxRetry) == Polled(Err(PollTimeout), n, n)
  {
    if maxRetry > 0 {
      SkipPending(server, maxRetry, 0, maxRetry);
    }
  }

  /** Everything a run of the loop does is accounted for by its replies:
      it queries at most `maxRetry` times, every reply but a final terminal
      one was pending, it sleeps once after each pending reply, and it times
      out exactly when all `maxRetry` replies were pending. */
  lemma {:induction false} PollFromShape(server: nat -> Reply, maxRetry: int, i: nat)
    requires i <= maxRetry || i == 0
    requires PendingUpTo(server, i)
    ensures var p := PollFrom(server, maxRetry, i);
      && i <= p.queries <= (if maxRetry < 0 then 0 else maxRetry)
      && PendingUpTo(server, p.sleeps)
      && (p.outcome == Err(PollTimeout) ==> p.queries == p.sleeps == (if maxRetry < 0 then 0 else maxRetry))
      && (p.outcome != Err(PollTimeout) ==>
            && p.queries == p.sleeps + 1
            && match Inspect(server(p.sleeps))
               case Finished(output) => p.outcome == Ok(output)
               case Aborted(e) => p.outcome == Err(e)
               case Pending => false)
    decreases maxRetry - i
  {
    if i < maxRetry && Inspect(server(i)).Pending? {
      PollFromShape(server, maxRetry, i + 1);
    }
  }

  /** `PollFromShape` from the first attempt. */
  lemma PollShape(server: nat -> Reply, maxRetry: int)
    ensures var p := Poll(server, maxRetry);
      && p.queries <= (if maxRetry < 0 then 0 else maxRetry)
      && PendingUpTo(server, p.sleeps)
      && (p.outcome == Err(PollTimeout) <==> PendingUpTo(server, maxRetry))
      && (p.outcome == Err(PollTimeout) ==> p.queries == p.sleeps == (if maxRetry < 0 then 0 else maxRetry))
      && (p.outcome != Err(PollTimeout) ==> p.queries == p.sleeps + 1)
  {
    PollFromShape(server, maxRetry, 0);
    var p := Poll(server, maxRetry);
    if p.outcome != Err(PollTimeout) {
      assert !Inspect(server(p.sleeps)).Pending?;
    }
  }

  /** With the defaults, a run sleeps at most 60 times 3 seconds, and a
      timeout has slept all of it, the last sleep coming after the last
      query. */
  lemma WorstCaseWait(server: nat -> Reply)
    ensures Poll(server, DefaultMaxRetry).sleeps * DefaultInterval <= 180
    ensures Poll(server, DefaultMaxRetry).outcome == Err(PollTimeout) ==>
      Poll(server, DefaultMaxRetry).sleeps * DefaultInterval == 180
  {
    PollShape(server, DefaultMaxRetry);
  }

  /** A run from attempt `i` makes the query of attempt `i` whenever one is
      left. */
  lemma {:induction false} QueriesFrom(server: nat -> Reply, maxRetry: int, i: nat)
    ensures PollFrom(server, maxRetry, i).queries >= i
    ensures i < maxRetry ==> PollFrom(server, maxRetry, i).queries > i
    decreases maxRetry - i
  {
    if i < maxRetry && Inspect(server(i)).Pending? {
      QueriesFrom(server, maxRetry, i + 1);
    }
  }

  /** No query is made after the one that ended the run: two servers that
      give the same replies to the queries a run made lead to the same run. */
  lemma {:induction false} NoFurtherQueries(s1: nat -> Reply, s2: nat -> Reply, maxRetry: int, i: nat)
    requires forall j: nat :: i <= j < PollFrom(s1, maxRetry, i).queries ==> s1(j) == s2(j)
    ensures PollFrom(s2, maxRetry, i) == PollFrom(s1, maxRetry, i)
    decreases maxRetry - i
  {
    if i < maxRetry {
      QueriesFrom(s1, maxRetry, i);
      assert s1(i) == s2(i);
      if Inspect(s1(i)).Pending? {
        NoFurtherQueries(s1, s2, maxRetry, i + 1);
      }
    }
  }

  /** A dict reply with no `data`, a `data` dict with no status, or a status
      other than the three the loop knows leaves the job pending, whatever
      other keys the reply carries. */
  lemma OtherStatusIsPending(text: string, fields: map<string, Json>, data: map<string, Json>)
    requires "data" in fields ==> fields["data"] == JObj(data)
    requires "status" in data ==> data["status"] !in {JStr("success"), JStr("fail"), JStr("error")}
    ensures Inspect(Answered(text, JObj(fields))) == Pending
  {
  }

  /** "success" returns the reply's output, or the empty dict when it has
      none; "fail" and "error" raise with the reply's text.  Other keys
      beside `data` make no difference. */
  lemma TerminalStatus(text: string, fields: map<string, Json>, data: map<string, Json>)
    requires "data" in fields && fields["data"] == JObj(data)
    requires "status" in data
    ensures data["status"] == JStr("success") ==>
      Inspect(Answered(text, JObj(fields))) ==
        Finished(if "output" in data then data["output"] else JObj(map[]))
    ensures data["status"] in {JStr("fail"), JStr("error")} ==>
      Inspect(Answered(text, JObj(fields))) == Aborted(Raised("Task failed: " + text))
  {
  }

  /** The converse of the two lemmas above: a reply leaves the job pending
      exactly when the request succeeded, its body is a dict, its `data` is
      absent or a dict, and the status found there is none of the three the
      loop knows. */
  lemma PendingIff(reply: Reply)
    ensures Inspect(reply).Pending? <==>
      && reply.Answered? && reply.body.JObj?
      && ("data" in reply.body.fields ==> reply.body.fields["data"].JObj?)
      && ("data" in reply.body.fields && "status" in reply.body.fields["data"].fields ==>
            reply.body.fields["data"].fields["status"] !in {JStr("success"), JStr("fail"), JStr("error")})
  {
  }

  /** A body that is not a dict, or a `data` that is not one, aborts the
      poll with the AttributeError of `get` instead of leaving it pending. */
  lemma NonDictReplyAborts(text: string, body: Json)
    ensures !body.JObj? ==> Inspect(Answered(text, body)) == Aborted(NoAttribute(TypeName(body), "get"))
    ensures body.JObj? && "data" in body.fields && !body.fields["data"].JObj? ==>
      Inspect(Answered(text, body)) == Aborted(NoAttribute(TypeName(body.fields["data"]), "get"))
  {
  }
}

=== FILE: taskclient.dfy ===
/** The job client of proxy.py: `create_task` builds the generation request
    around the image URL, posts it, and reads the job id from the answer. */
module TaskClient {
  import opened Values
  import opened Io

  const DefaultTexture: string := "standard"
  const DefaultAlignment: string := "original_image"

  /** The body of `POST {API_BASE}/task`. */
  function TaskPayload(imageUrl: Json, texture: string, alignment: string): Json {
    JObj(map[
      "type" := JStr("generation"),
      "model" := JStr("image-to-3d"),
      "input" := JObj(map[
        "image_url" := imageUrl,
        "texture" := JStr(texture),
        "texture_alignment" := JStr(alignment)])])
  }

  /** `resp.json()["data"]["task_id"]` after `raise_for_status()`. */
  function TaskId(reply: Reply): Result<Json> {
    match reply
    case Failed(m) => Err(RequestFailed(m))
    case Answered(_, body) =>
      var data :- Subscript(body, "data");
      Subscript(data, "task_id")
  }

  /** `create_task(image_url)` with the default texture options: one post,
      then the job id. */
  function CreateTask(imageUrl: Json, reply: Reply): Staged<Json> {
    Staged([PostTask(TaskPayload(imageUrl, DefaultTexture, DefaultAlignment))], TaskId(reply))
  }

  /** The payload carries the image URL unchanged, under `input.image_url`,
      next to the fixed job kind and the texture options, and nothing else. */
  lemma PayloadCarriesImage(imageUrl: Json, texture: string, alignment: string)
    ensures var p := TaskPayload(imageUrl, texture, alignment);
      && p.JObj? && p.fields.Keys == {"type", "model", "input"}
      && Subscript(p, "type") == Ok(JStr("generation"))
      && Subscript(p, "model") == Ok(JStr("image-to-3d"))
      && Subscript(p, "input").Ok?
      && var input := Subscript(p, "input").value;
         && input.JObj? && input.fields.Keys == {"image_url", "texture", "texture_alignment"}
         && Subscript(input, "image_url") == Ok(imageUrl)
         && Subscript(input, "texture") == Ok(JStr(texture))
         && Subscript(input, "texture_alignment") == Ok(JStr(alignment))
  {
  }

  /** Two payloads are equal exactly when they were built from the same URL
      and options: the payload loses nothing. */
  lemma PayloadInjective(u1: Json, t1: string, a1: string, u2: Json, t2: string, a2: string)
    ensures TaskPayload(u1, t1, a1) == TaskPayload(u2, t2, a2) <==> u1 == u2 && t1 == t2 && a1 == a2
  {
    if TaskPayload(u1, t1, a1) == TaskPayload(u2, t2, a2) {
      PayloadCarriesImage(u1, t1, a1);
      PayloadCarriesImage(u2, t2, a2);
    }
  }

  /** A task id is obtained exactly when the service answered with a dict
      whose `data` is a dict holding `task_id`. */
  lemma TaskIdIff(reply: Reply)
    ensures TaskId(reply).Ok? <==>
      && reply.Answered? && reply.body.JObj? && "data" in reply.body.fields
      && reply.body.fields["data"].JObj? && "task_id" in reply.body.fields["data"].fields
    ensures TaskId(reply).Ok? ==> TaskId(reply).value == reply.body.fields["data"].fields["task_id"]
    ensures reply.Failed? ==> TaskId(reply) == Err(RequestFailed(reply.message))
  {
  }
}

=== FILE: text.dfy ===
/** The `str` methods the proxy relies on, `split`, `split(sep, 1)` and
    `startswith`, for a one-character separator, and the search `Find` that
    the two splits are defined by. */
module Text {

  /** The index of the first `c` in `s`, or -1; a helper for `Split` and
      `SplitOnce`. */
  function Find(s: string, c: char): (r: int)
    ensures -1 <= r < |s|
    ensures r == -1 <==> c !in s
    ensures r >= 0 ==> s[r] == c && c !in s[..r]
  {
    if s == [] then -1
    else if s[0] == c then 0
    else
      var k := Find(s[1..], c);
      assert s[1..][..if k < 0 then 0 else k] == s[1..if k < 0 then 1 else k + 1];
      if k < 0 then -1 else k + 1
  }

  /** `s.split(sep)`: the pieces between the separators, in order. */
  function Split(s: string, sep: char): (parts: seq<string>)
    ensures |parts| >= 1
    ensures |parts| == 1 <==> sep !in s
    ensures forall k :: 0 <= k < |parts| ==> sep !in parts[k]
    ensures parts[0] == if sep in s then s[..Find(s, sep)] else s
    decreases |s|
  {
    var i := Find(s, sep);
    if i < 0 then [s] else [s[..i]] + Split(s[i + 1..], sep)
  }

  /** `s.split(sep, 1)`: the text before the first separator and the rest. */
  function SplitOnce(s: string, sep: char): (parts: seq<string>)
    ensures |parts| == 2 <==> sep in s
    ensures |parts| == 1 <==> sep !in s
    ensures |parts| == 1 ==> parts[0] == s
    ensures |parts| == 2 ==> sep !in parts[0] && s == parts[0] + [sep] + parts[1]
  {
    var i := Find(s, sep);
    if i < 0 then [s] else [s[..i], s[i + 1..]]
  }

  /** `s.startswith(prefix)`. */
  predicate StartsWith(s: string, prefix: string) {
    |prefix| <= |s| && s[..|prefix|] == prefix
  }

  /** Searching past a stretch without `c` adds its length to the index. */
  lemma {:induction false} FindAfter(a: string, b: string, c: char)
    requires c !in a
    ensures Find(a + b, c) == if c in b then |a| + Find(b, c) else -1
  {
    if a != [] {
      assert (a + b)[1..] == a[1..] + b;
      FindAfter(a[1..], b, c);
    } else {
      assert a + b == b;
    }
  }

  /** The first piece of `a + b` is `a` followed by the first piece of `b`
      when `a` holds no separator. */
  lemma FirstPieceAfter(a: string, b: string, sep: char)
    requires sep !in a
    ensures Split(a + b, sep)[0] == a + Split(b, sep)[0]
  {
    FindAfter(a, b, sep);
    if sep in b {
      assert (a + b)[..|a| + Find(b, sep)] == a + b[..Find(b, sep)];
    } else {
      assert sep !in a + b;
    }
  }

  /** A separator (or the end) right after `a` ends the first piece. */
  lemma FirstPieceEnds(a: string, b: string, sep: char)
    requires sep !in a
    requires b == [] || b[0] == sep
    ensures Split(a + b, sep)[0] == a
  {
    FirstPieceAfter(a, b, sep);
    if b != [] {
      assert Find(b, sep) == 0;
    }
  }

  /** Splitting at a separator after a stretch without one yields that
      stretch as the first piece and the split of the rest after it. */
  lemma SplitAfter(a: string, b: string, sep: char)
    requires sep !in a
    ensures Split(a + [sep] + b, sep) == [a] + Split(b, sep)
  {
    var s := a + [sep] + b;
    FindAfter(a, [sep] + b, sep);
    assert a + ([sep] + b) == s;
    assert Find(s, sep) == |a|;
    assert s[..|a|] == a;
    assert s[|a| + 1..] == b;
  }

  /** `split(sep, 1)` undoes joining with a separator that the first part
      does not hold; later separators stay in the second part. */
  lemma SplitOnceAfter(a: string, b: string, sep: char)
    requires sep !in a
    ensures SplitOnce(a + [sep] + b, sep) == [a, b]
  {
    var s := a + [sep] + b;
    FindAfter(a, [sep] + b, sep);
    assert a + ([sep] + b) == s;
    assert Find(s, sep) == |a|;
    assert s[..|a|] == a;
    assert s[|a| + 1..] == b;
  }

  /** A prefix without `c` lies wholly before the first `c`. */
  lemma FindPastPrefix(p: string, s: string, c: char)
    requires StartsWith(s, p) && c !in p && c in s
    ensures |p| <= Find(s, c) && s[..Find(s, c)][..|p|] == p
  {
    assert p + s[|p|..] == s;
    FindAfter(p, s[|p|..], c);
  }

  /** A prefix stays a prefix when the string is extended. */
  lemma StartsWithAppend(s: string, p: string, t: string)
    requires StartsWith(s, p)
    ensures StartsWith(s + t, p)
  {
    assert (s + t)[..|p|] == s[..|p|];
  }
}

=== FILE: values.dfy ===
/** The Python values the proxy handles: JSON documents as `json.loads`
    returns them, the exceptions that can end a request, and the built-in
    operations (`dict.get`, `d[key]`, truthiness, `str`) whose behaviour the
    proxy's decisions depend on. */
module Values {

  /** One byte of file content. */
  newtype Byte = x: int | 0 <= x < 256

  type Bytes = seq<Byte>

  /** A decoded JSON document.  Numbers are integers in this model. */
  datatype Json =
    | JNull
    | JBool(b: bool)
    | JNum(n: int)
    | JStr(s: string)
    | JArr(items: seq<Json>)
    | JObj(fields: map<string, Json>)

  /** The exceptions that can escape from a step of the pipeline. */
  datatype Error =
    | Raised(message: string)                          // `raise Exception(message)` in the proxy itself
    | PollTimeout                                      // `raise TimeoutError("Task polling timeout")`
    | RequestFailed(message: string)                   // an outbound request, `raise_for_status()` or `.json()` failed, or the inbound body did not parse
    | BadBase64(message: string)                       // `base64.b64decode` rejected the payload
    | Unpack                                           // ValueError: `a, b = s.split(",", 1)` got one piece
    | IndexOutOfRange                                  // IndexError: `pieces[1]` of a one-piece split
    | MissingKey(key: string)                          // KeyError from `d[key]`
    | NoAttribute(typeName: string, attribute: string) // AttributeError: a method called on the wrong type
    | NotSubscriptable(typeName: string)               // TypeError: `x[key]` on something that is not a dict

  /** A value or the exception that replaced it; usable with `:-`. */
  datatype Result<T> = Ok(value: T) | Err(error: Error) {
    predicate IsFailure() {
      Err?
    }

    function PropagateFailure<U>(): Result<U>
      requires Err?
    {
      Err(error)
    }

    function Extract(): T
      requires Ok?
    {
      value
    }
  }

  /** Python's truth value of a JSON value (`bool(x)`). */
  predicate Truthy(j: Json) {
    match j
    case JNull => false
    case JBool(b) => b
    case JNum(n) => n != 0
    case JStr(s) => s != ""
    case JArr(items) => items != []
    case JObj(fields) => fields != map[]
  }

  /** `type(x).__name__` for a JSON value. */
  function TypeName(j: Json): string {
    match j
    case JNull => "NoneType"
    case JBool(_) => "bool"
    case JNum(_) => "int"
    case JStr(_) => "str"
    case JArr(_) => "list"
    case JObj(_) => "dict"
  }

  /** `d.get(key, default)`: only a dict has `get`. */
  function Get(d: Json, key: string, default: Json): (r: Result<Json>)
    ensures r.Ok? <==> d.JObj?
    ensures r.Ok? ==> r.value == if key in d.fields then d.fields[key] else default
    ensures r.Err? ==> r.error == NoAttribute(TypeName(d), "get")
  {
    match d
    case JObj(fields) => Ok(if key in fields then fields[key] else default)
    case _ => Err(NoAttribute(TypeName(d), "get"))
  }

  /** `d[key]` with a string key. */
  function Subscript(d: Json, key: string): (r: Result<Json>)
    ensures r.Ok? <==> d.JObj? && key in d.fields
    ensures r.Ok? ==> r.value == d.fields[key]
    ensures d.JObj? && key !in d.fields ==> r == Err(MissingKey(key))
    ensures !d.JObj? ==> r == Err(NotSubscriptable(TypeName(d)))
  {
    match d
    case JObj(fields) => if key in fields then Ok(fields[key]) else Err(MissingKey(key))
    case _ => Err(NotSubscriptable(TypeName(d)))
  }

  /** The decimal digits of `n`, as `str(n)` writes them. */
  function NatToString(n: nat): (s: string)
    ensures |s| >= 1
    ensures forall k :: 0 <= k < |s| ==> '0' <= s[k] <= '9'
    decreases n
  {
    var digit := [('0' as int + n % 10) as char];
    if n < 10 then digit else NatToString(n / 10) + digit
  }

  /** The number a string of decimal digits spells. */
  ghost function DigitsValue(s: string): int
    decreases |s|
  {
    if s == [] then 0 else DigitsValue(s[..|s| - 1]) * 10 + (s[|s| - 1] as int - '0' as int)
  }

  /** Appending a digit shifts the value one place and adds the digit. */
  lemma DigitsAppend(s: string, c: char)
    ensures DigitsValue(s + [c]) == DigitsValue(s) * 10 + (c as int - '0' as int)
  {
    assert (s + [c])[..|s + [c]| - 1] == s;
  }

  /** `NatToString(n)` is `str(n)`: its digits spell `n`, with no leading
      zero unless `n` is 0. */
  lemma {:induction false} NatToStringValue(n: nat)
    ensures DigitsValue(NatToString(n)) == n
    ensures NatToString(n)[0] == '0' <==> n == 0
    decreases n
  {
    var digit := ('0' as int + n % 10) as char;
    if n < 10 {
      DigitsAppend([], digit);
      assert [] + [digit] == NatToString(n);
    } else {
      NatToStringValue(n / 10);
      DigitsAppend(NatToString(n / 10), digit);
      assert NatToString(n / 10) + [digit] == NatToString(n);
    }
  }

  /** `str(x)` for a JSON value, as an f-string formats it.  Arrays and
      objects are written as a fixed placeholder. */
  function PyStr(j: Json): string {
    match j
    case JNull => "None"
    case JBool(b) => if b then "True" else "False"
    case JNum(n) => if n < 0 then "-" + NatToString(-n) else NatToString(n)
    case JStr(s) => s
    case JArr(_) => "[...]"
    case JObj(_) => "{...}"
  }

  /** `str(e)`: the text the caller receives in a 500 response. */
  function Message(e: Error): string {
    match e
    case Raised(m) => m
    case PollTimeout => "Task polling timeout"
    case RequestFailed(m) => m
    case BadBase64(m) => m
    case Unpack => "not enough values to unpack (expected 2, got 1)"
    case IndexOutOfRange => "list index out of range"
    case MissingKey(k) => "'" + k + "'"
    case NoAttribute(t, a) => "'" + t + "' object has no attribute '" + a + "'"
    case NotSubscriptable(t) =>
      if t == "list" then "list indices must be integers or slices, not str"
      else if t == "str" then "string indices must be integers, not 'str'"
      else "'" + t + "' object is not subscriptable"
  }
}
